=== FILE: README.md ===
# GATT/GAP bootstrap profile — a Dafny model

This project models the BlueZ GATT/GAP bootstrap profile (`profiles/gatt/gatt.c`).
When the profile is attached to a Bluetooth Low Energy peer, it runs four steps:

1. It resolves the Generic Access service. In that service it resolves the Device Name
   and Appearance characteristics and caches their value attributes. All three are mandatory.
2. It resolves the Generic Attribute service, which is also mandatory.
3. If the peer offers it, it subscribes to the Service Changed indication through that
   characteristic's Client Characteristic Configuration descriptor.
4. It registers a connection-state callback. Each transition of the profile's own service
   into *connected* then issues a read of the Device Name and a read of the Appearance.
   The completions of those reads decode the payloads and update the device.

The model is functional:

- `bytes.dfy` — module `Bytes`: octets, 16-bit little-endian fields (what `att_get_u16`
  reads) and NUL-terminated strings.
- `attrib.dfy` — module `Attrib`: the discovered attribute topology as an immutable
  datatype. A device holds services, a service holds characteristic declarations, and a
  declaration holds descriptors. Each is keyed by a 16-bit UUID. The attribute library's
  lookups (`btd_gatt_get_services`, `btd_gatt_get_chars_decl`, `btd_gatt_get_char_desc`,
  `btd_gatt_get_char_value`) become pure queries. Each returns every match in topology
  order; the profile always uses the first one. An attribute object (`struct
  btd_attribute *`) is an `AttrRef`: the device that owns it and its handle there.
- `gatt.dfy` — module `Gatt`: the profile. The three module globals (`service_state_id`,
  `name`, `appearance`) become a `Globals` record, with NULL as `None`. Every effectful call
  becomes an `Action` in the list an operation returns. These calls are: a read request, a
  notifier registration, a state-callback registration or removal, and a name or
  appearance update. An operation returns its C return code, the globals afterwards and
  its actions.
- `gatt_lemmas.dfy` — module `GattLemmas`: properties that relate several operations.
  They cover the probe followed by a connect event, two probes sharing the globals, and
  a run of state events. The module also holds the decoders' round trips and the worked
  examples.

Some values come from outside the profile and are parameters of the model:

- the id `btd_service_add_state_cb` returns;
- the identity of a `btd_service` (a number that stands for its address);
- the error code and payload a read completion carries.

The UUIDs are the Bluetooth assigned numbers: Generic Access 0x1800, Generic Attribute
0x1801, Device Name 0x2A00, Appearance 0x2A01, Service Changed 0x2A05 and Client
Characteristic Configuration 0x2902. `-EIO` is the Linux errno 5, negated.

`gatt_driver_remove` (`profiles/gatt/gatt.c:219-224`) only removes the state callback.
The notifier that `setup_gatt` registers is never unregistered, so `Gatt.Remove` emits
only `RemoveStateCb`.

## Model

| member | source | states |
|---|---|---|
| `Bytes.GetLe16` | profiles/gatt/gatt.c:96-97 | the low octet of the decoded field is the first octet and the high octet the second; the result is always a 16-bit value |
| `Bytes.CStr` | profiles/gatt/gatt.c:56-58 | the string read from a buffer is a NUL-free prefix of it, which stops at the first NUL or at the end of the buffer |
| `Bytes.CStrTerminatedAt` | profiles/gatt/gatt.c:54-58 | storing a NUL at index i and then reading the string gives the same result as reading the string of the first i octets |
| `Attrib.Filter` | profiles/gatt/gatt.c:111-118 | a lookup list holds exactly the matching elements, and its head is the first matching element of the topology |
| `Attrib.GetServices` | profiles/gatt/gatt.c:168-175 | the service list is empty exactly when the device has no service with the UUID; its head is the device's first such service |
| `Attrib.GetCharsDecl` | profiles/gatt/gatt.c:178-185 | the declaration list is empty exactly when the service has no characteristic with the UUID; its head is the first such declaration |
| `Attrib.GetCharValue` | profiles/gatt/gatt.c:185 | the value attribute of a declaration belongs to the device the declaration was discovered on and sits at the declaration's value handle, so equal handles on two peers are still distinct attributes |
| `Attrib.GetCharDesc` | profiles/gatt/gatt.c:131-136 | the descriptor lookup is NULL exactly when the characteristic has no descriptor with the UUID, and otherwise it is the first one |
| `Gatt.ReadDeviceNameCb` | profiles/gatt/gatt.c:44-59 | an error leaves the device alone; a success applies exactly one name to the device, and that name satisfies `IsReadName`: it is a NUL-free prefix of the payload without its last octet and stops at the first NUL |
| `Gatt.ReadDeviceNameCbAsWritten` | profiles/gatt/gatt.c:54 | with size_t arithmetic the terminator index wraps to SIZE_MAX exactly for a successful zero-length read; every other read applies what `Gatt.ReadDeviceNameCb` applies, and on success hands back the caller's buffer with its last octet replaced by NUL (an error leaves it untouched) |
| `Gatt.ReadAppearanceCb` | profiles/gatt/gatt.c:61-77 | an error leaves the device alone; a success applies exactly one appearance, and its little-endian encoding is the first two octets of the payload |
| `Gatt.ServiceChanged` | profiles/gatt/gatt.c:87-102 | every indication keeps the subscription; a payload is decoded exactly when it has 4 octets, and the two decoded handles re-encode to the payload |
| `Gatt.RefreshGap` | profiles/gatt/gatt.c:79-85 | exactly two reads go to the device: the cached name attribute with the name callback first, then the cached appearance attribute with the appearance callback |
| `Gatt.StateChanged` | profiles/gatt/gatt.c:144-158 | reads are issued exactly when the event is for the registered service and the new state is Connected; the old state does not matter |
| `Gatt.SetupGap` | profiles/gatt/gatt.c:160-199 | the result is 0 exactly when the first GAP service has both a Device Name and an Appearance declaration, and -EIO otherwise; on success the cached attributes are the peer's own value attributes of the first of each; the state callback id is never touched; the appearance global changes only on success; without a GAP service the globals are untouched |
| `Gatt.SetupGatt` | profiles/gatt/gatt.c:104-142 | the result is -EIO exactly when there is no GATT service; at most one notifier is registered, and one is registered exactly when the first Service Changed declaration has a configuration descriptor, always on that descriptor; nothing else is emitted, and nothing at all on failure |
| `Gatt.Probe` | profiles/gatt/gatt.c:201-217 | the probe succeeds exactly when GAP is usable and a GATT service exists; a GAP failure returns what setup_gap returned, without looking at GATT; every failure keeps the globals exactly as setup_gap left them, so a GATT failure after a usable GAP service still leaves this peer's attributes cached; on success the peer's GAP value attributes are cached; the state callback is registered, and its id stored, exactly on success |
| `Gatt.Remove` | profiles/gatt/gatt.c:219-224 | exactly one removal, and it is of the callback id held in the globals |
| `GattLemmas.SetupGapOverwritesNameBeforeAppearanceCheck` | profiles/gatt/gatt.c:185-193 | a GAP service with a Device Name but no Appearance fails with -EIO after the name attribute has been replaced by the peer's own; the appearance attribute is kept |
| `GattLemmas.SetupGapWithoutNameKeepsGlobals` | profiles/gatt/gatt.c:178-183 | a GAP service without a Device Name fails with -EIO, takes no action and keeps the globals |
| `GattLemmas.ProbeActions` | profiles/gatt/gatt.c:206-216 | a probe takes no action when GAP fails or GATT is absent; on success its actions are setup_gatt's, followed by the state-callback registration |
| `GattLemmas.ProbeNotifierIffMonitorable` | profiles/gatt/gatt.c:117-139 | a probe's first action is a notifier registration exactly when GAP is usable and the peer's first Service Changed declaration has a configuration descriptor; by `GattLemmas.ProbeActions` no notifier can appear elsewhere |
| `GattLemmas.ProbeIssuesNoReads` | profiles/gatt/gatt.c:201-217 | bootstrap never reads an attribute: every action of a probe is a notifier or a state-callback registration |
| `GattLemmas.ProbeWithoutCccOnlyRegistersStateCb` | profiles/gatt/gatt.c:120-136 | a successful probe of a peer whose Service Changed declaration lacks a configuration descriptor, or that has no such declaration, only registers the state callback |
| `GattLemmas.ProbeWithoutGattStillCachesGap` | profiles/gatt/gatt.c:185-212 | a peer with a usable GAP service but no GATT service fails with -EIO and takes no action, yet its Device Name and Appearance value attributes are now the cached ones; the state callback id is unchanged |
| `GattLemmas.InitialGlobalsBeforeAnyProbe` | profiles/gatt/gatt.c:40-42 | the module starts with callback id 0 and NULL attributes; a probe of a peer without GAP keeps them, and a first successful probe sets both attributes, the name to one owned by that peer |
| `GattLemmas.ProbeKeepsAttributesSet` | profiles/gatt/gatt.c:160-217 | once both attributes are set no probe clears them, whether it fails or succeeds, so a connect event after the first successful probe never reads a NULL attribute |
| `GattLemmas.SetupGapNeverClears` | profiles/gatt/gatt.c:185-195 | setup_gap only stores attributes: a set name or appearance stays set on every path |
| `GattLemmas.ConnectAfterProbeReadsGapValues` | profiles/gatt/gatt.c:144-158 | after a successful probe, a connect event reads the peer's own value attributes of the first Device Name and then the first Appearance of its first GAP service |
| `GattLemmas.RemoveAfterProbeUnregistersIt` | profiles/gatt/gatt.c:214-224 | removal after a successful probe unregisters the callback that the probe registered |
| `GattLemmas.SecondProbeRedirectsFirstPeer` | profiles/gatt/gatt.c:40-42 | the globals are shared by all peers: when both peers can be probed successfully, after the second probe both cached attributes are owned by the second peer, the first peer's connect event asks the first peer to read them, and removing the first peer unregisters the second peer's callback |
| `GattLemmas.SecondProbeRedirectsFullStackExample` | profiles/gatt/gatt.c:79-85 | two peers with the same layout (devices 1 and 2): after both probes, the first peer's connect reads device 2's attributes at 0x0003 and 0x0005 on device 1 |
| `GattLemmas.FullStackSetupGap` | profiles/gatt/gatt.c:160-199 | on a peer with GAP, Device Name and Appearance, setup_gap succeeds and caches that peer's value attributes at 0x0003 and 0x0005 |
| `GattLemmas.FullStackSetupGatt` | profiles/gatt/gatt.c:104-142 | on the same peer setup_gatt succeeds, and subscribes on descriptor 0x0009 exactly when the peer has it |
| `GattLemmas.FullStackProbe` | profiles/gatt/gatt.c:201-217 | a peer with every item succeeds and caches both of its value attributes; it subscribes on the descriptor when the peer has one, and then registers the state callback |
| `GattLemmas.DispatchIsConnectReads` | profiles/gatt/gatt.c:144-158 | over any run of state events, what state_changed emits is exactly, in event order, a Device Name read and then an Appearance read on the connecting device for every connect of the registered service, repeats included, and nothing for any other event |
| `GattLemmas.DispatchReadsTwicePerConnect` | profiles/gatt/gatt.c:144-158 | over any run of state events, the number of actions is twice the number of connects of the registered service, and every action is a read |
| `GattLemmas.ReadNameIsUnique` | profiles/gatt/gatt.c:54-58 | any name that satisfies `IsReadName` for a payload is the name the callback applies |
| `GattLemmas.NameIsAllButLastOctet` | profiles/gatt/gatt.c:54 | when no NUL comes before the last octet, the name is the whole payload except its last octet |
| `GattLemmas.WidgetName` | profiles/gatt/gatt.c:44-59 | "Widget" with a terminator (7 octets) applies "Widget"; the same 6 octets without a terminator apply "Widge" |
| `GattLemmas.EmptyNameWritesOutOfBounds` | profiles/gatt/gatt.c:54 | a successful zero-length read makes the code as written store at index SIZE_MAX; the corrected callback applies the empty name |
| `GattLemmas.AppearanceRoundTrip` | profiles/gatt/gatt.c:72-76 | an appearance encoded little-endian at the start of the payload is applied unchanged, whatever octets follow it |
| `GattLemmas.AppearanceExample` | profiles/gatt/gatt.c:72 | the payload 0x40 0x03 applies appearance 0x0340 |
| `GattLemmas.ServiceChangedRoundTrip` | profiles/gatt/gatt.c:96-97 | an encoded handle range decodes back to the same range |
| `GattLemmas.ServiceChangedExamples` | profiles/gatt/gatt.c:93-97 | 01 00 10 00 decodes to 0x0001..0x0010; a 3-octet payload is not decoded; both keep the subscription |

## Left out

- Plugin wiring (`profiles/gatt/gatt.c:226-253`): the `btd_profile` structure registers `gatt_driver_probe` and `gatt_driver_remove`, hands connect and disconnect to the attribute library's `btd_gatt_connect` and `btd_gatt_disconnect`, and asks for auto-connect. Those two library functions are foreign. init/exit and the plugin macro only register the profile.
- `src/hcid.h`: it holds only daemon-wide constants and declarations and no logic.
- The attribute library: discovery, the ATT transport and 128-bit UUID expansion are foreign. Its lookups are modelled as first-match queries over a given topology, with UUIDs as opaque 16-bit values.
- Asynchrony: read completions and indications are separate functions that a caller invokes. The event loop's ordering of them is not modelled.
- Logging (`DBG`, `error`, `strerror`) and list freeing (`g_slist_free`) are not modelled. The Service Changed range is only logged by the source; the model returns it in `Indication`.
- `device_set_name` and `device_set_appearance` are recorded as actions. What the device object does with the values is not part of this model.
- `btd_service_state_t` comes from `service.h`, which is not part of this model. Its five states are taken as Unavailable, Disconnected, Connecting, Connected and Disconnecting.
- A per-peer cache of attributes is not modelled. The globals are process-wide as in the source, and `GattLemmas.SecondProbeRedirectsFirstPeer` states what that implies.
- Gatt.ReadDeviceNameCb: does not return the caller's buffer after the terminator store. The corrected callback is stated by what it applies; `Gatt.ReadDeviceNameCbAsWritten` returns the buffer as the store leaves it.
- Gatt.ReadAppearanceCb: requires a payload of at least two octets on success. The source reads two octets without checking `len`, so its over-read of a shorter payload is not represented. The Appearance value is two octets by definition (section 12.2 of Vol 3 Part C of the Bluetooth Core Specification), and what a shorter buffer holds past its end is not part of this model.

## Findings

| source | as written | input that shows it | evidently intended | confidence | as-written member | corrected member |
|---|---|---|---|---|---|---|
| profiles/gatt/gatt.c:54 | the Device Name callback stores the terminator at index `len - 1` without checking that `len` is at least 1, and `len` is a size_t | a successful read of a zero-length Device Name (`err` = 0, `len` = 0). Section 12.1 of Vol 3 Part C of the Bluetooth Core Specification allows a name of 0 octets. The index wraps to SIZE_MAX and the store falls outside the payload | the device gets the empty name | not executed; medium, because it depends on the attribute library delivering zero-length successful reads | `Gatt.ReadDeviceNameCbAsWritten` (shown by `GattLemmas.EmptyNameWritesOutOfBounds`) | `Gatt.ReadDeviceNameCb` |

=== FILE: attrib.dfy ===
/** The remote attribute topology as the GATT profile sees it once discovery
    is done: services holding characteristic declarations holding
    descriptors, each keyed by a 16-bit UUID. The lookups btd_gatt_get_services,
    btd_gatt_get_chars_decl, btd_gatt_get_char_desc and btd_gatt_get_char_value
    belong to the attribute library; here they are pure queries over that
    topology, returning every match in topology order. */
module Attrib {
  import opened Bytes

  datatype Option<T> = None | Some(value: T)

  type Uuid = u16
  type Handle = u16

  // Bluetooth assigned numbers for the services, characteristics and
  // descriptor the profile looks up.
  const GENERIC_ACCESS_PROFILE_ID: Uuid := 0x1800
  const GENERIC_ATTRIB_PROFILE_ID: Uuid := 0x1801
  const GATT_CHARAC_DEVICE_NAME: Uuid := 0x2A00
  const GATT_CHARAC_APPEARANCE: Uuid := 0x2A01
  const GATT_CHARAC_SERVICE_CHANGED: Uuid := 0x2A05
  const GATT_CLIENT_CHARAC_CFG_UUID: Uuid := 0x2902

  datatype Descriptor = Descriptor(handle: Handle, uuid: Uuid)

  /** A characteristic declaration at `handle`, whose value attribute is at
      `valueHandle`. */
  datatype Characteristic = Characteristic(
    handle: Handle, uuid: Uuid, valueHandle: Handle, descriptors: seq<Descriptor>)

  datatype Service = Service(handle: Handle, uuid: Uuid, chars: seq<Characteristic>)

  /** A remote device and the services discovered on it. */
  datatype Device = Device(id: nat, services: seq<Service>)

  /** x is the first element of xs that satisfies keep. */
  ghost predicate IsFirst<T(!new)>(xs: seq<T>, keep: T -> bool, x: T) {
    exists i :: 0 <= i < |xs| && xs[i] == x && keep(x) && forall j :: 0 <= j < i ==> !keep(xs[j])
  }

  /** Dropping a head that does not satisfy keep does not change which
      element comes first. */
  lemma IsFirstTail<T(!new)>(xs: seq<T>, keep: T -> bool, x: T)
    requires |xs| > 0 && !keep(xs[0])
    ensures IsFirst(xs, keep, x) <==> IsFirst(xs[1..], keep, x)
  {

  }

  /** The elements of xs that satisfy keep, in order: a GSList as the
      attribute library returns it, empty when nothing matches. */
  function Filter<T(!new)>(xs: seq<T>, keep: T -> bool): (r: seq<T>)
    ensures forall x :: x in r <==> x in xs && keep(x)
    ensures forall x :: IsFirst(xs, keep, x) <==> |r| > 0 && x == r[0]
  {
    if |xs| == 0 then []
    else if keep(xs[0]) then
      assert forall x :: IsFirst(xs, keep, x) ==> x == xs[0];
      assert IsFirst(xs, keep, xs[0]) by {
        assert 0 < |xs| && xs[0] == xs[0] && keep(xs[0]);
      }
      [xs[0]] + Filter(xs[1..], keep)
    else
      var rest := Filter(xs[1..], keep);
      assert forall x :: IsFirst(xs, keep, x) <==> IsFirst(xs[1..], keep, x) by {
        forall x
          ensures IsFirst(xs, keep, x) <==> IsFirst(xs[1..], keep, x)
        {
          IsFirstTail(xs, keep, x);
        }
      }
      assert forall x :: x in xs <==> x == xs[0] || x in xs[1..];
      rest
  }

  function ServiceIs(uuid: Uuid): Service -> bool {
    (s: Service) => s.uuid == uuid
  }

  function CharIs(uuid: Uuid): Characteristic -> bool {
    (c: Characteristic) => c.uuid == uuid
  }

  function DescIs(uuid: Uuid): Descriptor -> bool {
    (d: Descriptor) => d.uuid == uuid
  }

  ghost predicate HasService(dev: Device, uuid: Uuid) {
    exists s :: s in dev.services && s.uuid == uuid
  }

  ghost predicate HasChar(svc: Service, uuid: Uuid) {
    exists c :: c in svc.chars && c.uuid == uuid
  }

  ghost predicate HasDesc(chr: Characteristic, uuid: Uuid) {
    exists d :: d in chr.descriptors && d.uuid == uuid
  }

  /** s is the first service of dev with this UUID. */
  ghost predicate FirstServiceIs(dev: Device, uuid: Uuid, s: Service) {
    IsFirst(dev.services, ServiceIs(uuid), s)
  }

  /** c is the first characteristic declaration of svc with this UUID. */
  ghost predicate FirstCharIs(svc: Service, uuid: Uuid, c: Characteristic) {
    IsFirst(svc.chars, CharIs(uuid), c)
  }

  /** d is the first descriptor of chr with this UUID. */
  ghost predicate FirstDescIs(chr: Characteristic, uuid: Uuid, d: Descriptor) {
    IsFirst(chr.descriptors, DescIs(uuid), d)
  }

  /** btd_gatt_get_services: the services of dev with this UUID. */
  function GetServices(dev: Device, uuid: Uuid): (r: seq<Service>)
    ensures forall s :: s in r <==> s in dev.services && s.uuid == uuid
    ensures |r| == 0 <==> !HasService(dev, uuid)
    ensures forall s :: FirstServiceIs(dev, uuid, s) <==> |r| > 0 && s == r[0]
  {
    var r := Filter(dev.services, ServiceIs(uuid));
    assert |r| > 0 ==> r[0] in r;
    r
  }

  /** btd_gatt_get_chars_decl: the characteristic declarations of svc with
      this UUID. */
  function GetCharsDecl(svc: Service, uuid: Uuid): (r: seq<Characteristic>)
    ensures forall c :: c in r <==> c in svc.chars && c.uuid == uuid
    ensures |r| == 0 <==> !HasChar(svc, uuid)
    ensures forall c :: FirstCharIs(svc, uuid, c) <==> |r| > 0 && c == r[0]
  {
    var r := Filter(svc.chars, CharIs(uuid));
    assert |r| > 0 ==> r[0] in r;
    r
  }

  /** btd_gatt_get_char_desc: the first descriptor of chr with this UUID,
      None (NULL) when it has none. */
  function GetCharDesc(chr: Characteristic, uuid: Uuid): (r: Option<Descriptor>)
    ensures r.Some? <==> HasDesc(chr, uuid)
    ensures forall d :: FirstDescIs(chr, uuid, d) <==> r == Some(d)
  {
    var ds := Filter(chr.descriptors, DescIs(uuid));
    assert |ds| > 0 ==> ds[0] in ds;
    if |ds| == 0 then None else Some(ds[0])
  }

  /** A struct btd_attribute *: an attribute object belongs to the device it
      was discovered on, so it is identified by that device and its handle
      there. Two peers with the same layout hold distinct attributes. */
  datatype AttrRef = AttrRef(owner: nat, handle: Handle)

  /** btd_gatt_get_char_value: the value attribute of a declaration of dev,
      owned by dev and found at the declaration's value handle. */
  function GetCharValue(dev: Device, chr: Characteristic): (r: AttrRef)
    ensures r.owner == dev.id && r.handle == chr.valueHandle
  {
    AttrRef(dev.id, chr.valueHandle)
  }
}

=== FILE: bytes.dfy ===
/** Octets as the attribute protocol carries them: 16-bit little-endian
    fields (what att_get_u16 reads) and NUL-terminated C strings. */
module Bytes {

  newtype byte = x: int | 0 <= x < 0x100
  newtype u16 = x: int | 0 <= x < 0x1_0000

  const NUL: byte := 0

  /** The little-endian 16-bit field stored at value[off], value[off + 1]:
      its low octet comes first. */
  function GetLe16(value: seq<byte>, off: nat): (v: u16)
    requires off + 2 <= |value|
    ensures v as int % 0x100 == value[off] as int
    ensures v as int / 0x100 == value[off + 1] as int
  {
    (value[off] as int + 0x100 * value[off + 1] as int) as u16
  }

  /** The two octets of v, low octet first. */
  function PutLe16(v: u16): (bs: seq<byte>)
    ensures |bs| == 2
    ensures bs[0] as int + 0x100 * bs[1] as int == v as int
  {
    [(v as int % 0x100) as byte, (v as int / 0x100) as byte]
  }

  /** Decoding what PutLe16 wrote gives the value back. */
  lemma GetPutLe16(v: u16)
    ensures GetLe16(PutLe16(v), 0) == v
  {
  }

  /** Encoding a decoded field gives the two octets back. */
  lemma PutGetLe16(value: seq<byte>, off: nat)
    requires off + 2 <= |value|
    ensures PutLe16(GetLe16(value, off)) == value[off..off + 2]
  {
  }

  /** The octets of s before its first NUL, or all of s when it holds none:
      what a reader of a NUL-terminated buffer sees. */
  function CStr(s: seq<byte>): (r: seq<byte>)
    ensures |r| <= |s| && r == s[..|r|]
    ensures NUL !in r
    ensures |r| < |s| ==> s[|r|] == NUL
  {
    if |s| == 0 || s[0] == NUL then [] else [s[0]] + CStr(s[1..])
  }

  /** The three facts CStr promises pin its result down: any NUL-free prefix
      that stops at a NUL or at the end of s is CStr(s). */
  lemma CStrUnique(s: seq<byte>, r: seq<byte>)
    requires |r| <= |s| && r == s[..|r|]
    requires NUL !in r
    requires |r| < |s| ==> s[|r|] == NUL
    ensures r == CStr(s)
  {
  }

  /** Storing a NUL at index i and reading the C string is the same as
      reading the C string of the first i octets. */
  lemma {:induction false} CStrTerminatedAt(s: seq<byte>, i: nat)
    requires i < |s|
    ensures CStr(s[i := NUL]) == CStr(s[..i])
  {
    var t := s[i := NUL];
    var c := CStr(s[..i]);
    assert t[..i] == s[..i];
    assert c == t[..|c|];
    if |c| < i {
      assert t[|c|] == s[..i][|c|];
    }
    CStrUnique(t, c);
  }
}

=== FILE: gatt.dfy ===
/** The GATT/GAP bootstrap profile (profiles/gatt/gatt.c). Its three module
    globals become a Globals record threaded through the operations; every
    call it makes into the attribute library or the device object that has an
    effect (a read request, a notifier or state-callback registration, a
    name or appearance update) becomes an Action in the list an operation
    returns. Lookups are the pure queries of module Attrib. */
module Gatt {
  import opened Bytes
  import opened Attrib

  /** Linux errno EIO; the profile reports -EIO for a missing mandatory item. */
  const EIO: int := 5

  /** Largest value of the C size_t used for payload lengths, taking size_t
      to be 64 bits wide (LP64). On a 32-bit target it is 0xFFFF_FFFF; the
      wrap to SIZE_MAX happens the same way there. */
  const SIZE_MAX: int := 0xFFFF_FFFF_FFFF_FFFF

  /** btd_service_state_t: the connection state of a profile service. */
  datatype ServiceState = Unavailable | Disconnected | Connecting | Connected | Disconnecting

  /** A btd_service: `id` stands for the object's identity (its address),
      `device` for btd_service_get_device. */
  datatype BtdService = BtdService(id: nat, device: Device)

  /** service_state_id, name and appearance; NULL is None. The two attribute
      pointers keep the device that owns the attribute. */
  datatype Globals = Globals(serviceStateId: nat, name: Option<AttrRef>, appearance: Option<AttrRef>)

  const InitialGlobals: Globals := Globals(0, None, None)

  /** Which completion callback a read request carries. */
  datatype ReadCallback = DeviceNameCallback | AppearanceCallback

  datatype Action =
    | ReadAttribute(device: nat, attr: Option<AttrRef>, callback: ReadCallback)  // btd_gatt_read_attribute
    | AddNotifier(ccc: Handle, device: nat)        // btd_gatt_add_notifier(attr, service_changed, device)
    | AddStateCb(service: nat)                     // btd_service_add_state_cb(state_changed, service)
    | RemoveStateCb(id: nat)                       // btd_service_remove_state_cb
    | SetName(device: nat, name: seq<byte>)        // device_set_name
    | SetAppearance(device: nat, appearance: u16)  // device_set_appearance

  /** A return code, the globals afterwards and the actions taken, in order. */
  datatype Outcome = Outcome(err: int, globals: Globals, actions: seq<Action>)

  /** What setup_gap yields: it takes no action, it only sets globals. */
  datatype GapStep = GapStep(err: int, globals: Globals)

  /** What setup_gatt yields: it sets no global, it only registers. */
  datatype GattStep = GattStep(err: int, actions: seq<Action>)

  datatype HandleRange = HandleRange(startHandle: u16, endHandle: u16)

  /** What service_changed returns (stay subscribed) and the range it
      decoded, None when the payload was not decoded. */
  datatype Indication = Indication(staySubscribed: bool, range: Option<HandleRange>)

  // ---------------------------------------------------------------------
  // What a conforming peer offers, stated over the topology

  /** The first GAP service holds both a Device Name and an Appearance
      characteristic. */
  ghost predicate GapUsable(dev: Device) {
    exists gap :: FirstServiceIs(dev, GENERIC_ACCESS_PROFILE_ID, gap)
      && HasChar(gap, GATT_CHARAC_DEVICE_NAME)
      && HasChar(gap, GATT_CHARAC_APPEARANCE)
  }

  /** The name and appearance attributes in g are dev's own value attributes
      of the first Device Name and the first Appearance declaration of the
      first GAP service of dev. */
  ghost predicate CachesGapHandles(dev: Device, g: Globals) {
    IsGapValuePair(dev, g.name, g.appearance)
  }

  ghost predicate IsGapValuePair(dev: Device, name: Option<AttrRef>, appearance: Option<AttrRef>) {
    exists gap, n, a ::
      && FirstServiceIs(dev, GENERIC_ACCESS_PROFILE_ID, gap)
      && FirstCharIs(gap, GATT_CHARAC_DEVICE_NAME, n)
      && FirstCharIs(gap, GATT_CHARAC_APPEARANCE, a)
      && name == Some(AttrRef(dev.id, n.valueHandle))
      && appearance == Some(AttrRef(dev.id, a.valueHandle))
  }

  /** d is the Client Characteristic Configuration descriptor of the first
      Service Changed declaration of the first GATT service of dev. */
  ghost predicate IsServiceChangedCcc(dev: Device, d: Descriptor) {
    exists gatt, sc ::
      && FirstServiceIs(dev, GENERIC_ATTRIB_PROFILE_ID, gatt)
      && FirstCharIs(gatt, GATT_CHARAC_SERVICE_CHANGED, sc)
      && FirstDescIs(sc, GATT_CLIENT_CHARAC_CFG_UUID, d)
  }

  ghost predicate ServiceChangedMonitorable(dev: Device) {
    exists d :: IsServiceChangedCcc(dev, d)
  }

  /** The name a read of value yields: the octets before the first NUL within
      the first |value| - 1 octets (the last octet is overwritten by the
      terminator), or nothing at all when value is empty. */
  ghost predicate IsReadName(value: seq<byte>, name: seq<byte>) {
    var limit := if |value| == 0 then 0 else |value| - 1;
    && |name| <= limit
    && name == value[..|name|]
    && NUL !in name
    && (|name| < limit ==> value[|name|] == NUL)
  }

  // ---------------------------------------------------------------------
  // Read completions and the Service Changed indication

  /** read_device_name_chr_cb with the zero-length payload fixed: on error
      nothing happens; otherwise the terminator goes at len - 1 and the name
      up to the first NUL is applied. An empty payload applies the empty name
      (see ReadDeviceNameCbAsWritten for the code as written). */
  function ReadDeviceNameCb(err: int, value: seq<byte>, device: nat): (acts: seq<Action>)
    ensures err != 0 ==> acts == []
    ensures err == 0 ==> |acts| == 1 && acts[0].SetName? && acts[0].device == device
    ensures err == 0 ==> IsReadName(value, acts[0].name)
  {
    if err != 0 then []
    else if |value| == 0 then [SetName(device, [])]
    else [SetName(device, CStr(value[..|value| - 1]))]
  }

  /** What storing NUL at value[len - 1] does when len is a C size_t: either
      the name applied together with the caller's buffer after the store, or
      a write at an index outside the payload. */
  datatype NameWrite = Applied(acts: seq<Action>, buffer: seq<byte>) | OutOfBounds(index: int)

  /** read_device_name_chr_cb as written: the terminator index len - 1 is
      computed in size_t arithmetic, so a zero-length payload wraps it to
      SIZE_MAX. On every other payload it agrees with ReadDeviceNameCb. */
  function ReadDeviceNameCbAsWritten(err: int, value: seq<byte>, device: nat): (w: NameWrite)
    requires |value| <= SIZE_MAX
    ensures w.OutOfBounds? <==> err == 0 && |value| == 0
    ensures w.OutOfBounds? ==> w.index == SIZE_MAX
    ensures w.Applied? ==> w.acts == ReadDeviceNameCb(err, value, device)
    ensures err != 0 ==> w == Applied([], value)
    ensures err == 0 && w.Applied? ==>
      |value| > 0 && w.buffer == value[..|value| - 1] + [NUL]
  {
    if err != 0 then Applied([], value)
    else
      var index := (|value| - 1) % (SIZE_MAX + 1);
      if index >= |value| then OutOfBounds(index)
      else
        CStrTerminatedAt(value, index);
        Applied([SetName(device, CStr(value[index := NUL]))], value[index := NUL])
  }

  /** read_appearance_chr_cb: on error nothing happens; otherwise the first
      two octets, little-endian, become the device's appearance. */
  function ReadAppearanceCb(err: int, value: seq<byte>, device: nat): (acts: seq<Action>)
    requires err == 0 ==> |value| >= 2
    ensures err != 0 ==> acts == []
    ensures err == 0 ==> |acts| == 1 && acts[0].SetAppearance? && acts[0].device == device
    ensures err == 0 ==> PutLe16(acts[0].appearance) == value[..2]
  {
    if err != 0 then []
    else
      PutGetLe16(value, 0);
      [SetAppearance(device, GetLe16(value, 0))]
  }

  /** service_changed: always asks to stay subscribed; only a 4-octet payload
      is decoded, as two little-endian handles, start then end. */
  function ServiceChanged(value: seq<byte>): (ind: Indication)
    ensures ind.staySubscribed
    ensures ind.range.Some? <==> |value| == 4
    ensures ind.range.Some? ==>
      PutLe16(ind.range.value.startHandle) + PutLe16(ind.range.value.endHandle) == value
  {
    if |value| != 4 then Indication(true, None)
    else
      PutGetLe16(value, 0);
      PutGetLe16(value, 2);
      Indication(true, Some(HandleRange(GetLe16(value, 0), GetLe16(value, 2))))
  }

  // ---------------------------------------------------------------------
  // Connection-state filter

  /** refresh_gap: read the cached name, then the cached appearance. */
  function RefreshGap(g: Globals, device: nat): (acts: seq<Action>)
    ensures |acts| == 2
    ensures forall a :: a in acts ==> a.ReadAttribute? && a.device == device
    ensures acts[0].attr == g.name && acts[0].callback == DeviceNameCallback
    ensures acts[1].attr == g.appearance && acts[1].callback == AppearanceCallback
  {
    [ReadAttribute(device, g.name, DeviceNameCallback),
     ReadAttribute(device, g.appearance, AppearanceCallback)]
  }

  /** state_changed, registered with user data `registered`: only a
      transition of that very service into Connected refreshes the identity;
      the old state plays no part. */
  function StateChanged(g: Globals, service: BtdService, oldState: ServiceState,
                        newState: ServiceState, registered: BtdService): (acts: seq<Action>)
    ensures acts != [] <==> service.id == registered.id && newState == Connected
    ensures acts != [] ==> acts == RefreshGap(g, service.device.id)
  {
    if service.id != registered.id then []
    else if newState != Connected then []
    else RefreshGap(g, service.device.id)
  }

  // ---------------------------------------------------------------------
  // Bootstrap

  /** setup_gap: find the first GAP service, cache the value attribute of its
      first Device Name declaration, then that of its first Appearance
      declaration; -EIO as soon as one of the three is missing. The name is
      cached before the Appearance lookup, so a peer with no Appearance
      still overwrites it. */
  function SetupGap(dev: Device, g: Globals): (r: GapStep)
    ensures r.err == 0 || r.err == -EIO
    ensures r.err == 0 <==> GapUsable(dev)
    ensures r.err == 0 ==> CachesGapHandles(dev, r.globals)
    ensures r.globals.serviceStateId == g.serviceStateId
    ensures r.globals.appearance != g.appearance ==> r.err == 0
    ensures !HasService(dev, GENERIC_ACCESS_PROFILE_ID) ==> r.globals == g
  {
    var gaps := GetServices(dev, GENERIC_ACCESS_PROFILE_ID);
    if |gaps| == 0 then GapStep(-EIO, g)
    else
      var gap := gaps[0];
      var names := GetCharsDecl(gap, GATT_CHARAC_DEVICE_NAME);
      if |names| == 0 then GapStep(-EIO, g)
      else
        var g1 := g.(name := Some(GetCharValue(dev, names[0])));
        var apps := GetCharsDecl(gap, GATT_CHARAC_APPEARANCE);
        if |apps| == 0 then GapStep(-EIO, g1)
        else
          assert FirstCharIs(gap, GATT_CHARAC_DEVICE_NAME, names[0]);
          assert FirstCharIs(gap, GATT_CHARAC_APPEARANCE, apps[0]);
          GapStep(0, g1.(appearance := Some(GetCharValue(dev, apps[0]))))
  }

  /** setup_gatt: -EIO only when there is no GATT service. A missing Service
      Changed declaration or a missing configuration descriptor is not an
      error and registers nothing; otherwise exactly one notifier goes on
      that descriptor. It never touches the globals. */
  function SetupGatt(dev: Device): (r: GattStep)
    ensures r.err == 0 || r.err == -EIO
    ensures r.err == 0 <==> HasService(dev, GENERIC_ATTRIB_PROFILE_ID)
    ensures r.err != 0 ==> r.actions == []
    ensures forall a :: a in r.actions ==> a.AddNotifier?
    ensures r.actions != [] <==> ServiceChangedMonitorable(dev)
    ensures r.actions != [] ==>
      exists d :: IsServiceChangedCcc(dev, d) && r.actions == [AddNotifier(d.handle, dev.id)]
  {
    var gatts := GetServices(dev, GENERIC_ATTRIB_PROFILE_ID);
    if |gatts| == 0 then GattStep(-EIO, [])
    else
      var scs := GetCharsDecl(gatts[0], GATT_CHARAC_SERVICE_CHANGED);
      if |scs| == 0 then GattStep(0, [])
      else
        match GetCharDesc(scs[0], GATT_CLIENT_CHARAC_CFG_UUID)
        case None => GattStep(0, [])
        case Some(ccc) =>
          assert IsServiceChangedCcc(dev, ccc) by {
            assert FirstServiceIs(dev, GENERIC_ATTRIB_PROFILE_ID, gatts[0]);
            assert FirstCharIs(gatts[0], GATT_CHARAC_SERVICE_CHANGED, scs[0]);
          }
          GattStep(0, [AddNotifier(ccc.handle, dev.id)])
  }

  /** gatt_driver_probe: GAP first, then GATT, each failure returned as is;
      a failure keeps whatever setup_gap cached, so a peer with a usable GAP
      service but no GATT service fails with its attributes cached. The state
      callback is registered, and its id stored, only when both succeed.
      `newId` is the id btd_service_add_state_cb hands back. */
  function Probe(service: BtdService, g: Globals, newId: nat): (o: Outcome)
    ensures o.err == 0 || o.err == -EIO
    ensures o.err == 0 <==> GapUsable(service.device)
                            && HasService(service.device, GENERIC_ATTRIB_PROFILE_ID)
    ensures !GapUsable(service.device) ==>
              o == Outcome(SetupGap(service.device, g).err, SetupGap(service.device, g).globals, [])
    ensures o.err == 0 ==> CachesGapHandles(service.device, o.globals)
    ensures o.err == 0 ==> o.globals.serviceStateId == newId
    ensures o.err != 0 ==> o.globals == SetupGap(service.device, g).globals
    ensures AddStateCb(service.id) in o.actions <==> o.err == 0
  {
    var gap := SetupGap(service.device, g);
    if gap.err < 0 then Outcome(gap.err, gap.globals, [])
    else
      var gatt := SetupGatt(service.device);
      if gatt.err < 0 then Outcome(gatt.err, gap.globals, gatt.actions)
      else Outcome(0, gap.globals.(serviceStateId := newId), gatt.actions + [AddStateCb(service.id)])
  }

  /** gatt_driver_remove: unregister whatever state callback id the globals
      hold, which is the one of the most recent successful probe. */
  function Remove(service: BtdService, g: Globals): (acts: seq<Action>)
    ensures |acts| == 1 && acts[0].RemoveStateCb?
    ensures acts[0].id == g.serviceStateId
  {
    [RemoveStateCb(g.serviceStateId)]
  }
}

=== FILE: gatt_lemmas.dfy ===
/** Properties of the GATT/GAP profile that relate several of its operations,
    or an operation to an independent description of its result. */
module GattLemmas {
  import opened Bytes
  import opened Attrib
  import opened Gatt

  // ---------------------------------------------------------------------
  // Bootstrap

  /** A peer whose first GAP service has a Device Name but no Appearance
      fails with -EIO, yet the name attribute has already been replaced by
      the peer's value attribute of that Device Name; the appearance is kept. */
  lemma SetupGapOverwritesNameBeforeAppearanceCheck(dev: Device, g: Globals, gap: Service)
    requires FirstServiceIs(dev, GENERIC_ACCESS_PROFILE_ID, gap)
    requires HasChar(gap, GATT_CHARAC_DEVICE_NAME) && !HasChar(gap, GATT_CHARAC_APPEARANCE)
    ensures SetupGap(dev, g).err == -EIO
    ensures SetupGap(dev, g).globals.appearance == g.appearance
    ensures exists n :: FirstCharIs(gap, GATT_CHARAC_DEVICE_NAME, n)
                        && SetupGap(dev, g).globals.name == Some(AttrRef(dev.id, n.valueHandle))
  {

  }

  /** A peer whose first GAP service has no Device Name fails with -EIO
      before any global is touched. */
  lemma SetupGapWithoutNameKeepsGlobals(dev: Device, g: Globals, gap: Service)
    requires FirstServiceIs(dev, GENERIC_ACCESS_PROFILE_ID, gap)
    requires !HasChar(gap, GATT_CHARAC_DEVICE_NAME)
    ensures SetupGap(dev, g) == GapStep(-EIO, g)
  {
  }

  /** What Probe emits beyond the state callback is what setup_gatt emits,
      and only when the probe succeeds. */
  lemma ProbeActions(service: BtdService, g: Globals, newId: nat)
    ensures Probe(service, g, newId).err != 0 ==> Probe(service, g, newId).actions == []
    ensures Probe(service, g, newId).err == 0 ==>
      Probe(service, g, newId).actions == SetupGatt(service.device).actions + [AddStateCb(service.id)]
  {
  }

  /** Probe opens with a notifier registration exactly when GAP is usable
      and the first Service Changed declaration of the first GATT service
      has a configuration descriptor; with ProbeIssuesNoReads, that is the
      only place a notifier can appear. */
  lemma ProbeNotifierIffMonitorable(service: BtdService, g: Globals, newId: nat)
    ensures var acts := Probe(service, g, newId).actions;
      (|acts| > 0 && acts[0].AddNotifier?) <==>
        GapUsable(service.device) && ServiceChangedMonitorable(service.device)
  {
    ProbeActions(service, g, newId);
    var o := Probe(service, g, newId);
    var gatt := SetupGatt(service.device);
    if o.err != 0 {
      assert !(GapUsable(service.device) && gatt.err == 0);
    } else if gatt.actions == [] {
      assert o.actions == [AddStateCb(service.id)];
    } else {
      assert o.actions[0] == gatt.actions[0];
    }
  }

  /** Bootstrap never reads an attribute: whatever the peer offers, a probe
      only registers a notifier and the state callback. */
  lemma ProbeIssuesNoReads(service: BtdService, g: Globals, newId: nat)
    ensures forall a :: a in Probe(service, g, newId).actions ==> a.AddNotifier? || a.AddStateCb?
  {
    ProbeActions(service, g, newId);
  }

  /** A successful probe of a peer without that descriptor (or without the
      Service Changed declaration) only registers the state callback. */
  lemma ProbeWithoutCccOnlyRegistersStateCb(service: BtdService, g: Globals, newId: nat)
    requires Probe(service, g, newId).err == 0
    requires !ServiceChangedMonitorable(service.device)
    ensures Probe(service, g, newId).actions == [AddStateCb(service.id)]
  {
    ProbeActions(service, g, newId);
  }

  /** A peer whose GAP service is usable but which has no GATT service fails
      the probe with -EIO, yet setup_gap has already cached its attributes:
      the failed probe still redirects every later connect event, and the
      state callback id is left as it was. */
  lemma ProbeWithoutGattStillCachesGap(service: BtdService, g: Globals, newId: nat)
    requires GapUsable(service.device)
    requires !HasService(service.device, GENERIC_ATTRIB_PROFILE_ID)
    ensures Probe(service, g, newId).err == -EIO
    ensures CachesGapHandles(service.device, Probe(service, g, newId).globals)
    ensures Probe(service, g, newId).globals.serviceStateId == g.serviceStateId
    ensures Probe(service, g, newId).actions == []
  {
  }

  /** The module starts with no callback id and NULL attributes; a probe of
      a peer without GAP keeps them so, and the first successful probe sets
      both attributes to that peer's own. */
  lemma InitialGlobalsBeforeAnyProbe(service: BtdService, newId: nat)
    ensures !HasService(service.device, GENERIC_ACCESS_PROFILE_ID) ==>
      Probe(service, InitialGlobals, newId) == Outcome(-EIO, InitialGlobals, [])
    ensures Probe(service, InitialGlobals, newId).err == 0 ==>
      && Probe(service, InitialGlobals, newId).globals.name.Some?
      && Probe(service, InitialGlobals, newId).globals.name.value.owner == service.device.id
      && Probe(service, InitialGlobals, newId).globals.appearance.Some?
  {
  }

  /** Once both attributes are set they stay set: no later probe, failed or
      not, puts NULL back, so the state callback, which exists only after a
      successful probe, never reads a NULL attribute. */
  lemma ProbeKeepsAttributesSet(service: BtdService, g: Globals, newId: nat,
                                event: BtdService, oldState: ServiceState, registered: BtdService)
    requires g.name.Some? && g.appearance.Some?
    ensures Probe(service, g, newId).globals.name.Some?
    ensures Probe(service, g, newId).globals.appearance.Some?
    ensures forall a :: a in StateChanged(Probe(service, g, newId).globals, event, oldState,
                                          Connected, registered)
                        ==> a.attr.Some?
  {
    var g1 := Probe(service, g, newId).globals;
    SetupGapNeverClears(service.device, g);
    assert g1.name.Some? && g1.appearance.Some?;
    var acts := StateChanged(g1, event, oldState, Connected, registered);
    if acts != [] {
      assert acts == RefreshGap(g1, event.device.id);
    }
  }

  /** setup_gap only ever stores attributes: a set one is never cleared. */
  lemma SetupGapNeverClears(dev: Device, g: Globals)
    ensures g.name.Some? ==> SetupGap(dev, g).globals.name.Some?
    ensures g.appearance.Some? ==> SetupGap(dev, g).globals.appearance.Some?
  {
  }

  /** After a successful probe, a connect event on the probed service reads
      the value of the first Device Name and then of the first Appearance
      declaration of the peer's first GAP service, on that peer. */
  lemma ConnectAfterProbeReadsGapValues(service: BtdService, g: Globals, newId: nat,
                                        oldState: ServiceState)
    requires Probe(service, g, newId).err == 0
    ensures exists gap, n, a ::
      && FirstServiceIs(service.device, GENERIC_ACCESS_PROFILE_ID, gap)
      && FirstCharIs(gap, GATT_CHARAC_DEVICE_NAME, n)
      && FirstCharIs(gap, GATT_CHARAC_APPEARANCE, a)
      && StateChanged(Probe(service, g, newId).globals, service, oldState, Connected, service)
         == [ReadAttribute(service.device.id, Some(AttrRef(service.device.id, n.valueHandle)),
                           DeviceNameCallback),
             ReadAttribute(service.device.id, Some(AttrRef(service.device.id, a.valueHandle)),
                           AppearanceCallback)]
  {
  }

  /** The removal after a successful probe unregisters the state callback
      that probe registered. */
  lemma RemoveAfterProbeUnregistersIt(service: BtdService, g: Globals, newId: nat)
    requires Probe(service, g, newId).err == 0
    ensures Remove(service, Probe(service, g, newId).globals) == [RemoveStateCb(newId)]
  {
  }

  /** The cached attributes and the state callback id are process-wide: once
      a second peer has been probed, a connect event on the first peer's
      service asks the first peer to read attributes that belong to the
      second peer, and removing the first peer unregisters the second peer's
      callback. */
  lemma SecondProbeRedirectsFirstPeer(first: BtdService, second: BtdService, g: Globals,
                                      firstId: nat, secondId: nat, oldState: ServiceState)
    requires GapUsable(first.device) && HasService(first.device, GENERIC_ATTRIB_PROFILE_ID)
    requires GapUsable(second.device) && HasService(second.device, GENERIC_ATTRIB_PROFILE_ID)
    ensures var g2 := Probe(second, Probe(first, g, firstId).globals, secondId).globals;
      && CachesGapHandles(second.device, g2)
      && g2.name.Some? && g2.name.value.owner == second.device.id
      && g2.appearance.Some? && g2.appearance.value.owner == second.device.id
      && StateChanged(g2, first, oldState, Connected, first)
         == [ReadAttribute(first.device.id, g2.name, DeviceNameCallback),
             ReadAttribute(first.device.id, g2.appearance, AppearanceCallback)]
      && Remove(first, g2) == [RemoveStateCb(secondId)]
  {
    var o1 := Probe(first, g, firstId);
    assert o1.err == 0;
    var o2 := Probe(second, o1.globals, secondId);
    assert o2.err == 0;
    assert o2.globals.serviceStateId == secondId;
  }

  /** A peer offering every item the profile looks up: GAP at 0x0001 with
      Device Name (value 0x0003) and Appearance (value 0x0005), GATT at
      0x0006 with Service Changed (value 0x0008), and, when withCcc holds,
      its configuration descriptor at 0x0009. */
  function FullStackDevice(id: nat, withCcc: bool): Device {
    Device(id, [
      Service(0x0001, GENERIC_ACCESS_PROFILE_ID, [
        Characteristic(0x0002, GATT_CHARAC_DEVICE_NAME, 0x0003, []),
        Characteristic(0x0004, GATT_CHARAC_APPEARANCE, 0x0005, [])]),
      Service(0x0006, GENERIC_ATTRIB_PROFILE_ID, [
        Characteristic(0x0007, GATT_CHARAC_SERVICE_CHANGED, 0x0008,
                       if withCcc then [Descriptor(0x0009, GATT_CLIENT_CHARAC_CFG_UUID)] else [])])])
  }

  /** setup_gap on the full-stack peer caches its two value attributes. */
  lemma FullStackSetupGap(deviceId: nat, withCcc: bool, g: Globals)
    ensures SetupGap(FullStackDevice(deviceId, withCcc), g)
      == GapStep(0, g.(name := Some(AttrRef(deviceId, 0x0003)),
                       appearance := Some(AttrRef(deviceId, 0x0005))))
  {
    var dev := FullStackDevice(deviceId, withCcc);
    var gap := dev.services[0];
    assert FirstServiceIs(dev, GENERIC_ACCESS_PROFILE_ID, gap);
    assert FirstCharIs(gap, GATT_CHARAC_DEVICE_NAME, gap.chars[0]);
    assert FirstCharIs(gap, GATT_CHARAC_APPEARANCE, gap.chars[1]);
  }

  /** setup_gatt on the full-stack peer succeeds either way, and subscribes
      on the descriptor only when there is one. */
  lemma FullStackSetupGatt(deviceId: nat, withCcc: bool)
    ensures SetupGatt(FullStackDevice(deviceId, withCcc))
      == GattStep(0, if withCcc then [AddNotifier(0x0009, deviceId)] else [])
  {
    var dev := FullStackDevice(deviceId, withCcc);
    var gatt := dev.services[1];
    assert FirstServiceIs(dev, GENERIC_ATTRIB_PROFILE_ID, gatt);
    assert FirstCharIs(gatt, GATT_CHARAC_SERVICE_CHANGED, gatt.chars[0]);
    if withCcc {
      assert FirstDescIs(gatt.chars[0], GATT_CLIENT_CHARAC_CFG_UUID, gatt.chars[0].descriptors[0]);
    }
  }

  /** Probing the full-stack peer succeeds and caches both of its value attributes;
      it subscribes to Service Changed on the descriptor when there is one,
      and then registers the state callback. */
  lemma FullStackProbe(serviceId: nat, deviceId: nat, withCcc: bool, g: Globals, newId: nat)
    ensures Probe(BtdService(serviceId, FullStackDevice(deviceId, withCcc)), g, newId)
      == Outcome(0, Globals(newId, Some(AttrRef(deviceId, 0x0003)),
                            Some(AttrRef(deviceId, 0x0005))),
                 (if withCcc then [AddNotifier(0x0009, deviceId)] else []) + [AddStateCb(serviceId)])
  {
    FullStackSetupGap(deviceId, withCcc, g);
    FullStackSetupGatt(deviceId, withCcc);
  }

  /** Two full-stack peers, devices 1 and 2 with the same layout: after
      both are probed, a connect of the first peer's service reads device
      2's Device Name and Appearance attributes on device 1. */
  lemma SecondProbeRedirectsFullStackExample(g: Globals, oldState: ServiceState)
    ensures var first := BtdService(10, FullStackDevice(1, true));
      var second := BtdService(20, FullStackDevice(2, true));
      var g2 := Probe(second, Probe(first, g, 100).globals, 200).globals;
      StateChanged(g2, first, oldState, Connected, first)
        == [ReadAttribute(1, Some(AttrRef(2, 0x0003)), DeviceNameCallback),
            ReadAttribute(1, Some(AttrRef(2, 0x0005)), AppearanceCallback)]
  {
    FullStackProbe(10, 1, true, g, 100);
    FullStackProbe(20, 2, true, Probe(BtdService(10, FullStackDevice(1, true)), g, 100).globals, 200);
  }

  // ---------------------------------------------------------------------
  // Connection-state events

  datatype StateEvent = StateEvent(service: BtdService, oldState: ServiceState, newState: ServiceState)

  /** The events that refresh the identity of `registered`. */
  function IsConnectOf(registered: BtdService): StateEvent -> bool {
    (e: StateEvent) => e.service.id == registered.id && e.newState == Connected
  }

  /** Everything state_changed emits for a run of events, in order. */
  function Dispatch(g: Globals, events: seq<StateEvent>, registered: BtdService): seq<Action> {
    if |events| == 0 then []
    else
      StateChanged(g, events[0].service, events[0].oldState, events[0].newState, registered)
        + Dispatch(g, events[1..], registered)
  }

  /** No connect event is deduplicated: every one of them, repeated or not,
      issues its own pair of reads, and nothing else issues any action. */
  lemma {:induction false} DispatchReadsTwicePerConnect(g: Globals, events: seq<StateEvent>,
                                                        registered: BtdService)
    ensures |Dispatch(g, events, registered)| == 2 * |Filter(events, IsConnectOf(registered))|
    ensures forall a :: a in Dispatch(g, events, registered) ==> a.ReadAttribute?
  {
    if |events| > 0 {
      DispatchReadsTwicePerConnect(g, events[1..], registered);
      var e := events[0];
      var head := StateChanged(g, e.service, e.oldState, e.newState, registered);
      var rest := Dispatch(g, events[1..], registered);
      assert Dispatch(g, events, registered) == head + rest;
      assert forall a :: a in head + rest ==> a in head || a in rest;
      FilterLength(events, IsConnectOf(registered));
    }
  }

  /** The reads a run of connect events calls for, stated without the
      filter: each connect, in order, refreshes the name and then the
      appearance of its own device. */
  function ConnectReads(g: Globals, connects: seq<StateEvent>): seq<Action> {
    if |connects| == 0 then []
    else RefreshGap(g, connects[0].service.device.id) + ConnectReads(g, connects[1..])
  }

  /** state_changed neither drops nor merges anything: over any run of
      events it emits exactly the name-then-appearance pair of every connect
      of the registered service, repeats included, in event order, each on
      the connecting device, and nothing for any other event. */
  lemma {:induction false} DispatchIsConnectReads(g: Globals, events: seq<StateEvent>,
                                                  registered: BtdService)
    ensures Dispatch(g, events, registered)
      == ConnectReads(g, Filter(events, IsConnectOf(registered)))
  {
    if |events| > 0 {
      DispatchIsConnectReads(g, events[1..], registered);
      var keep := IsConnectOf(registered);
      var e := events[0];
      var rest := Filter(events[1..], keep);
      if keep(e) {
        assert Filter(events, keep) == [e] + rest;
        assert ([e] + rest)[1..] == rest;
        assert StateChanged(g, e.service, e.oldState, e.newState, registered)
          == RefreshGap(g, e.service.device.id);
      } else {
        assert Filter(events, keep) == rest;
        assert StateChanged(g, e.service, e.oldState, e.newState, registered) == [];
      }
    }
  }

  /** Filter keeps the head exactly when it satisfies keep. */
  lemma FilterLength<T(!new)>(xs: seq<T>, keep: T -> bool)
    requires |xs| > 0
    ensures |Filter(xs, keep)| == |Filter(xs[1..], keep)| + (if keep(xs[0]) then 1 else 0)
  {
  }

  // ---------------------------------------------------------------------
  // Decoders

  /** IsReadName describes the name uniquely: whatever name satisfies it is
      the one the Device Name callback applies. */
  lemma ReadNameIsUnique(value: seq<byte>, name: seq<byte>, device: nat)
    requires IsReadName(value, name)
    ensures ReadDeviceNameCb(0, value, device) == [SetName(device, name)]
  {

  }

  /** When no NUL precedes the last octet, the name is every octet but the
      last: a payload sent without a terminator loses its final octet. */
  lemma NameIsAllButLastOctet(value: seq<byte>, device: nat)
    requires |value| > 0 && NUL !in value[..|value| - 1]
    ensures ReadDeviceNameCb(0, value, device) == [SetName(device, value[..|value| - 1])]
  {

  }

  /** "Widget" followed by its terminator, 7 octets, applies "Widget"; the
      same 6 octets without terminator apply "Widge". */
  lemma WidgetName(device: nat)
    ensures ReadDeviceNameCb(0, [0x57, 0x69, 0x64, 0x67, 0x65, 0x74, 0x00], device)
      == [SetName(device, [0x57, 0x69, 0x64, 0x67, 0x65, 0x74])]
    ensures ReadDeviceNameCb(0, [0x57, 0x69, 0x64, 0x67, 0x65, 0x74], device)
      == [SetName(device, [0x57, 0x69, 0x64, 0x67, 0x65])]
  {
    var terminated: seq<byte> := [0x57, 0x69, 0x64, 0x67, 0x65, 0x74, 0x00];
    var bare: seq<byte> := [0x57, 0x69, 0x64, 0x67, 0x65, 0x74];
    assert terminated[..6] == bare;
    assert bare[..5] == [0x57, 0x69, 0x64, 0x67, 0x65];
    NameIsAllButLastOctet(terminated, device);
    NameIsAllButLastOctet(bare, device);
  }

  /** A zero-length Device Name, which a peer may legitimately hold, makes
      the code as written store its terminator at index SIZE_MAX, outside
      the payload; the corrected callback applies the empty name. */
  lemma EmptyNameWritesOutOfBounds(device: nat)
    ensures ReadDeviceNameCbAsWritten(0, [], device) == OutOfBounds(SIZE_MAX)
    ensures ReadDeviceNameCb(0, [], device) == [SetName(device, [])]
  {
  }

  /** The appearance callback applies whatever 16-bit value was encoded in
      the first two octets, trailing octets ignored. */
  lemma AppearanceRoundTrip(v: u16, trailing: seq<byte>, device: nat)
    ensures ReadAppearanceCb(0, PutLe16(v) + trailing, device) == [SetAppearance(device, v)]
  {

  }

  /** [0x40, 0x03] applies appearance 0x0340. */
  lemma AppearanceExample(device: nat)
    ensures ReadAppearanceCb(0, [0x40, 0x03], device) == [SetAppearance(device, 0x0340)]
  {
  }

  /** An indication carrying an encoded range decodes to that range. */
  lemma ServiceChangedRoundTrip(r: HandleRange)
    ensures ServiceChanged(PutLe16(r.startHandle) + PutLe16(r.endHandle))
      == Indication(true, Some(r))
  {

  }

  /** [0x01, 0x00, 0x10, 0x00] is the range 0x0001..0x0010; a 3-octet
      payload is not decoded; both keep the subscription. */
  lemma ServiceChangedExamples()
    ensures ServiceChanged([0x01, 0x00, 0x10, 0x00]) == Indication(true, Some(HandleRange(0x0001, 0x0010)))
    ensures ServiceChanged([0x01, 0x00, 0x10]) == Indication(true, None)
  {
  }
}
